=== FILE: README.md ===
# meetup_map: the event pipeline and the tag cache, in Dafny

This project models the two pieces of `map/views.py` that carry real logic:

- the loop of `meetups_data`, which walks the events returned by the
  events provider, drops those without a venue, outside the requested time
  window or farther than the requested radius, builds one response record
  per remaining event (sequential `index`, coordinates, UTC seconds, the
  formatted local date, an HTML description) and, when `tag_flag` is the
  string `"true"`, tags each record through the tag cache;
- `set_tags`, a content-addressed memo in front of the topic classifier:
  the text's digest is looked up in the tag table; a hit answers from the
  table and writes a `"tags_db"` statistics row, anything else (absent key,
  or any exception in the lookup block) calls the classifier, stores its
  category under the digest and writes a `"tags"` row.

Files:

- `optional.dfy` — `Optional.Option`, for the keys a provider event may lack.
- `tag_cache.dfy` — module `TagCache`: the cache state (tag table as a
  `map`, statistics kinds as an append-only `seq`, and the log of texts the
  classifier was given), `SetTags`, and its invariants.
- `meetups.dfy` — module `Meetups`: events, query, records, the screening
  rule `Kept`, the description builders, `Enrich`, one loop step `Step`,
  the whole loop `Aggregate`, and `MeetupsData`, the loop written as a
  `while` over the events with its skips written as nested conditionals.
- `meetups_proofs.dfy` — module `MeetupsProofs`: properties of the whole loop.

Opaque collaborators are function-valued parameters, and nothing is assumed
about them beyond each being a fixed function of its arguments: the SHA-1
hex digest and the classifier (`TagCache.Services`), the haversine distance
`dist(lon1, lat1, lon2, lat2)`, the date formatter applied to local epoch
seconds, and `lookupFails(n)`, which says whether
the lookup block of the `n`-th `set_tags` call over the cache's lifetime
raises (`Meetups.Env`). The digest is not assumed injective; the one result
that speaks of collisions states them as a hypothesis.

Behaviour of the code that the model keeps as written:

- The window is `to_time <= int(time/1000) <= from_time`: the bound named
  "to" is the lower one. Both bounds are inclusive.
- `int(x/1000)` truncates toward zero, so negative milliseconds round up;
  `Meetups.Seconds` says so explicitly rather than using Dafny's Euclidean `/`.
- The description compared with `"<h1>No Description Found</h1>"` before
  classification always starts with the `<b>` header, so the test never
  succeeds: the classifier always receives `title + "/n" + desc`, with a
  literal slash-n and the full HTML description including the header
  (`Meetups.ClassifierTextAlwaysSlashN`, `Meetups.Enrich`). The
  commented-out line at map/views.py:77, `title + "\n" + desc_nohtml`,
  shows that a newline and the description without HTML were intended; the
  model follows the code as it runs.

## Model

| member | source | states |
|---|---|---|
| TagCache.SetTags | map/views.py:94-137 | afterwards the table holds the returned category under the text's digest; no other entry is added, removed or changed; exactly one statistics row is appended; on a hit (key present, no failure) the stored category is returned, the table is unchanged, the classifier is not called and the row is "tags_db"; otherwise the classifier is called once on this text, its verdict is returned and the row is "tags" |
| TagCache.SecondCallHits | map/views.py:101-135 | calling twice on the same text, the second call without a lookup failure is a hit whatever the first did: same category, no classifier call, table unchanged, one "tags_db" row |
| TagCache.SetTagsKeepsInvariants | map/views.py:107-135 | one call keeps the number of "tags" rows equal to the number of classifier calls and keeps every stored category the classifier's verdict on some text with that digest, even under failures; without a failure it keeps every classified text stored and no text classified twice |
| TagCache.SetTagsAnswersFromClassifier | map/views.py:101-130 | from a sound table the answer is the classifier's verdict on some classified text sharing the digest, and is the verdict on this text when no other classified text shares it |
| Meetups.Seconds | map/views.py:57-58 | milliseconds become whole seconds `s` truncated toward zero: for non-negative input `s*1000` is the largest multiple of 1000 not above it, for negative input `s*1000` is the smallest multiple of 1000 not below it |
| Meetups.BaseDesc | map/views.py:64-73 | the description opens with "<b>" and is the header followed by the event's description, or by the placeholder when the event has none |
| Meetups.ClassifierText | map/views.py:78-81 | the title is a prefix of the classifier input; the input is the title alone exactly when the description is the placeholder; otherwise it ends with the whole description |
| Meetups.ClassifierTextAlwaysSlashN | map/views.py:76-81 | the classifier input built from a composed description is always the title, the two characters "/n" and the whole HTML description including its header: the title-alone branch never applies and the separator is never a newline |
| Meetups.BaseDescNeverPlaceholder | map/views.py:65-81 | the composed description never equals the placeholder, so the title-alone branch is unreachable |
| Meetups.Enrich | map/views.py:43-84 | the record carries the given index and its event's title, link, venue address and coordinates, truncated UTC seconds and offset, and the date formatted from the local time; without the flag the description is the composed one and the cache is untouched; with the flag the cache is asked about title + "/n" + composed description and the description is "<b>Tags:</b> " + category + "<hr>" + composed description |
| Meetups.Step | map/views.py:35-87 | an event failing the venue, window or radius rule leaves list and cache as they were; one passing them appends exactly one record, whose index is the previous length and which describes the event; without the tag flag the cache is untouched, with it the record carries the category `set_tags` answers for title + "/n" + composed description and the cache is the one that call leaves |
| Meetups.Aggregate | map/views.py:34-90 | the response never has more records than there were events; what the records are is stated by the MeetupsProofs lemmas about it |
| Meetups.KeptPositions | map/views.py:35-55 | the positions of screened-in events are strictly increasing, in range and each passes the venue, window and radius rules |
| Meetups.MeetupsData | map/views.py:34-90 | the imperative loop, with its skips written as nested conditionals, computes the same response list and final cache as the step-by-step definition |
| MeetupsProofs.AggregateIndices | map/views.py:44-87 | the index fields are exactly 0, 1, ..., N-1 in output order, independent of skipped events |
| MeetupsProofs.AggregateWithinWindow | map/views.py:41-57 | every record's utc satisfies to_time <= utc <= from_time |
| MeetupsProofs.AggregateWithinRadius | map/views.py:53-55 | every record's venue is at distance at most the radius from the origin |
| MeetupsProofs.AggregateFollowsKept | map/views.py:35-87 | the response is an order-preserving subsequence of the events: the k-th record describes the event at the k-th screened-in position, and there are as many records as such positions |
| MeetupsProofs.KeptInMilliseconds | map/views.py:41 | for a start time at or after the epoch, an event with a venue passes the screen exactly when to_time * 1000 <= time < from_time * 1000 + 1000 and its venue is within the radius: both window bounds are inclusive after truncation |
| MeetupsProofs.KeptPositionsComplete | map/views.py:37-55 | an event's position is listed exactly when it has a venue, starts inside the window and lies within the radius, so no qualifying event is dropped |
| MeetupsProofs.AggregateIgnoresVenueless | map/views.py:37-90 | events without a venue leave no trace whatever their other fields: response and cache equal those for the same events with every venueless one removed |
| MeetupsProofs.AggregateCacheTraffic | map/views.py:76-84 | without the tag flag the cache is untouched; with it exactly one statistics row is appended per record and none per skipped event |
| MeetupsProofs.AggregateKeepsCacheInvariants | map/views.py:94-137 | across a whole request the "tags" rows stay equal in number to the classifier calls and the table stays sound; without lookup failures no text is classified twice, across all requests sharing the cache |
| MeetupsProofs.AggregateTagsFromStore | map/views.py:76-84 | with the tag flag and no lookup failures, every record's category is the entry the final tag table holds under the digest of the classifier input of the event it describes |
| MeetupsProofs.StepTagsFromStore | map/views.py:76-84 | one loop iteration, skipped or kept, keeps every earlier record's category equal to the table entry under its classifier input's digest, and the new record's category is the entry under its own |
| MeetupsProofs.AggregateStoreGrows | map/views.py:107-130 | without lookup failures an entry once written is never removed or changed, so the table only grows |
| MeetupsProofs.AggregateReplayServedFromCache | map/views.py:99-137 | replaying a request against the cache it left, without lookup failures, yields the same records, tag categories included, calls the classifier for nothing and leaves the table unchanged |
| MeetupsProofs.FreshCacheClassifiesEachTextOnce | map/views.py:99-135 | from an empty tag table and without lookup failures, a request hands no text to the classifier twice, writes one "tags" row per classifier call and stores only the classifier's own verdicts |

## Left out

- Meetups.Aggregate: its own contract only bounds the length of the response; the index, window, radius, subsequence, venue and cache properties are proved about it in the MeetupsProofs lemmas rather than repeated in its contract.
- The page views `index`, `privacy`, `concept` and `partial` (map/views.py:12-18, 161-165): template rendering only.
- The request handling around the loop (map/views.py:23-32, 92): reading `os.environ`, cutting `lat`/`lon` to 10 characters, the metre-to-mile conversion (the factor 0.000621371192 is miles per metre), the `int(radius)+1` radius sent to the provider, the HTTP fetch and JSON decoding, and the `JsonResponse`. These are I/O and floating-point; the model takes the decoded events, the origin as reals and the radius already in miles.
- `haversine` (map/views.py:140-154): trigonometry on floats; the model uses an opaque `dist`, so its symmetry and its zero at equal points are not modelled.
- MeetupsProofs.AggregateWithinRadius: `dist` is a real, so every kept record is within the radius. In the source the origin is `float()` of the raw request strings (map/views.py:24-25, 53), which accepts `nan`; the distance is then NaN, `nan > radius` is false, the `continue` at map/views.py:55 is skipped, and every event with a venue inside the window is kept whatever the radius. An infinite coordinate makes `sin` raise and aborts the request. Neither case is modelled.
- `utcfromtimestamp` and `strftime` (map/views.py:61-62): a library call, modelled as an opaque formatter of the local epoch-seconds value.
- SHA-1 and the classifier `tags.tag`: opaque functions. The `tags` module is not part of this model.
- The classifier is a remote service (map/views.py:124) whose answers may change over time; the model makes it a fixed function of the text, so a stored category is never out of date with respect to it. The cache has no expiry, so in the running system a hit can return an answer the service would no longer give; `TagCache.Sound` and the "verdict on this text" clause of `TagCache.SetTagsAnswersFromClassifier` rest on this determinism.
- Elapsed times in the statistics rows: wall-clock floats; only the row kind is kept.
- Meetups.Seconds: models `int(x/1000)` as exact truncating division; the rounding of the float quotient, which only matters far beyond realistic millisecond timestamps, is not modelled.
- Exceptions that abort the whole request: a missing `name`, `link`, `time`, `utc_offset`, `group` or venue field, a failing classifier, or a failing tag-table or statistics write in the miss path (map/views.py:124-135). The event datatype always carries those fields and the classifier is total, so the model describes the requests that complete.
- The tag table is a map keyed by digest. `map/models.py` is not part of this model; if the table allowed two rows with one key, the lookup would raise and the bare `except` would treat it as a miss, which the `lookupFails` schedule can express but the overwrite semantics do not.
- The tag object: the record's `tags` field holds the whole dict `set_tags` returns, `{'cat': ...}` on a hit and whatever `tags.tag` returns on a miss (map/views.py:83, 111, 124). The model keeps only its category, so the records' agreement in `MeetupsProofs.AggregateReplayServedFromCache` covers the category and not any other key the classifier's dict may carry.
- Concurrent requests sharing the cache: the model is one request at a time.
- The legacy endpoints `concept_meetups_data` and `partial_meetups_data` (map/views.py:168-230): fixed-origin fetches repeating a subset of the same loop, plus `strip_tags`.

=== FILE: meetups.dfy ===
/**
  The body of the `meetups_data` loop (map/views.py): every provider event is
  screened (venue present, start time inside the window, venue within the
  radius of the origin), turned into an output record, and optionally tagged
  through the tag cache. The HTTP request that produces the events and the
  JSON response that carries the records away are outside the model.
*/
module Meetups {
  import opened Optional
  import opened TagCache

  /** The `venue` object of a provider event. */
  datatype Venue = Venue(address: string, lat: real, lon: real)

  /** One provider event. `time` and `utcOffset` are in milliseconds. */
  datatype Event = Event(
    name: string,
    link: string,
    venue: Option<Venue>,
    time: int,
    utcOffset: int,
    groupName: string,
    description: Option<string>)

  /**
    The request parameters. `toTime` is the LOWER and `fromTime` the UPPER
    bound of the window, in epoch seconds, as the request names them.
    `radius` is already in miles.
  */
  datatype Query = Query(lat: real, lon: real, radius: real, toTime: int, fromTime: int, tagFlag: string)

  /**
    The opaque collaborators: the tag cache's services, the great-circle
    distance `dist(lon1, lat1, lon2, lat2)`, the date formatter applied to a
    local epoch-seconds value, and the schedule of failures inside the
    cache's lookup, indexed by the ordinal of the `set_tags` call over the
    cache's lifetime (which is the number of statistics rows before it).
  */
  datatype Env = Env(
    services: Services,
    dist: (real, real, real, real) -> real,
    formatDate: int -> string,
    lookupFails: nat -> bool)

  /** One entry of the response list. */
  datatype Record = Record(
    index: nat,
    title: string,
    link: string,
    address: string,
    lat: real,
    lng: real,
    utc: int,
    utcOffset: int,
    date: string,
    group: string,
    desc: string,
    tags: Option<Cat>)

  /** The response list built so far and the tag cache as it stands. */
  datatype Output = Output(records: seq<Record>, cache: Cache)

  /** A record together with the cache after tagging it. */
  datatype Enriched = Enriched(record: Record, cache: Cache)

  ghost predicate NoFailures(env: Env) {
    forall n: nat :: !env.lookupFails(n)
  }

  /** Milliseconds to whole seconds as `int(ms/1000)` does: truncation toward zero. */
  function Seconds(ms: int): (s: int)
    ensures 0 <= ms ==> 0 <= s * 1000 <= ms < s * 1000 + 1000
    ensures ms < 0 ==> s * 1000 - 1000 < ms <= s * 1000 <= 0
  {
    if 0 <= ms then ms / 1000 else -((-ms) / 1000)
  }

  /** The three screening rules, in the order the loop applies them. */
  predicate Kept(e: Event, q: Query, env: Env) {
    && e.venue.Some?
    && q.toTime <= Seconds(e.time) <= q.fromTime
    && env.dist(e.venue.value.lon, e.venue.value.lat, q.lon, q.lat) <= q.radius
  }

  const Placeholder: string := "<h1>No Description Found</h1>"

  /** The bold group/title line, the date line and the link line. */
  function Header(group: string, title: string, date: string, link: string): string {
    "<b>" + group + ": " + title + "</b></br>"
    + "Held at: <b>" + date + "</b></br>"
    + "<a href=\"" + link + "\" target=\"_blank\">Meetup Page Link</a></br><hr>"
  }

  /** The description before tagging: the header, then the event's text or the placeholder. */
  function BaseDesc(e: Event, date: string): (d: string)
    ensures |d| > 3 && d[..3] == "<b>"
    ensures e.description.None? ==> d == Header(e.groupName, e.name, date, e.link) + Placeholder
    ensures e.description.Some? ==> d == Header(e.groupName, e.name, date, e.link) + e.description.value
  {
    Header(e.groupName, e.name, date, e.link)
    + match e.description
      case Some(text) => text
      case None => Placeholder
  }

  /**
    The classifier input as the loop chooses it. The title always leads; the
    input is the title alone exactly when the description is the
    placeholder, and otherwise ends with the whole description.
  */
  function ClassifierText(title: string, desc: string): (t: Text)
    ensures |title| <= |t| && t[..|title|] == title
    ensures t == title <==> desc == Placeholder
    ensures desc != Placeholder ==> |desc| < |t| && t[|t| - |desc|..] == desc
  {
    if desc == Placeholder then title else title + "/n" + desc
  }

  /** The line prepended to the description once a category is known. */
  function TagLine(cat: Cat): string {
    "<b>Tags:</b> " + cat + "<hr>"
  }

  /**
    The composed description always opens with the header's "<b>", so it
    never equals the placeholder, and the title-alone branch of the tag step
    is unreachable.
  */
  lemma BaseDescNeverPlaceholder(e: Event, date: string)
    ensures BaseDesc(e, date) != Placeholder
  {
  }

  /**
    Consequently the classifier input built from a composed description is
    always the title, the two characters "/n" and the whole HTML description,
    header included.
  */
  lemma ClassifierTextAlwaysSlashN(e: Event, date: string)
    ensures ClassifierText(e.name, BaseDesc(e, date)) == e.name + "/n" + BaseDesc(e, date)
  {
  }

  /** Every field a record takes from its event, and the shape of its description. */
  ghost predicate Describes(rec: Record, e: Event, q: Query, env: Env) {
    && e.venue.Some?
    && rec.title == e.name
    && rec.link == e.link
    && rec.address == e.venue.value.address
    && rec.lat == e.venue.value.lat
    && rec.lng == e.venue.value.lon
    && rec.utc == Seconds(e.time)
    && rec.utcOffset == Seconds(e.utcOffset)
    && rec.date == env.formatDate(Seconds(e.time + e.utcOffset))
    && rec.group == e.groupName
    && (if q.tagFlag == "true" then
          rec.tags.Some? && rec.desc == TagLine(rec.tags.value) + BaseDesc(e, rec.date)
        else
          rec.tags.None? && rec.desc == BaseDesc(e, rec.date))
  }

  /**
    The record of an event that passed the screen. With the tag flag set, the
    cache is asked about `title + "/n" + description`, the full HTML
    description, and the returned category heads the description.
  */
  function Enrich(e: Event, index: nat, q: Query, env: Env, c: Cache): (r: Enriched)
    requires e.venue.Some?
    ensures r.record.index == index
    ensures Describes(r.record, e, q, env)
    ensures q.tagFlag != "true" ==> r.cache == c
    ensures q.tagFlag == "true" ==>
      var t := SetTags(c, e.name + "/n" + BaseDesc(e, r.record.date), env.services, env.lookupFails(|c.stats|));
      r.record.tags == Some(t.cat) && r.cache == t.cache
  {
    var v := e.venue.value;
    var date := env.formatDate(Seconds(e.time + e.utcOffset));
    var rec := Record(index, e.name, e.link, v.address, v.lat, v.lon,
                      Seconds(e.time), Seconds(e.utcOffset), date, e.groupName,
                      BaseDesc(e, date), None);
    if q.tagFlag == "true" then
      BaseDescNeverPlaceholder(e, date);
      var t := SetTags(c, ClassifierText(rec.title, rec.desc), env.services, env.lookupFails(|c.stats|));
      Enriched(rec.(desc := TagLine(t.cat) + rec.desc, tags := Some(t.cat)), t.cache)
    else
      Enriched(rec, c)
  }

  /** The text a kept event hands to the tag cache: title, "/n" and the composed description. */
  function TagInput(e: Event, env: Env): Text {
    e.name + "/n" + BaseDesc(e, env.formatDate(Seconds(e.time + e.utcOffset)))
  }

  /** One iteration of the loop: skip the event, or append its record. */
  function Step(acc: Output, e: Event, q: Query, env: Env): (r: Output)
    ensures !Kept(e, q, env) ==> r == acc
    ensures Kept(e, q, env) ==>
      && |r.records| == |acc.records| + 1
      && r.records[..|acc.records|] == acc.records
      && r.records[|acc.records|].index == |acc.records|
      && Describes(r.records[|acc.records|], e, q, env)
    // without the tag flag a kept event leaves the cache alone
    ensures Kept(e, q, env) && q.tagFlag != "true" ==> r.cache == acc.cache
    // with it, the new record carries what `set_tags` answers and the cache is the one it leaves
    ensures Kept(e, q, env) && q.tagFlag == "true" ==>
      var t := SetTags(acc.cache, TagInput(e, env), env.services, env.lookupFails(|acc.cache.stats|));
      r.records[|acc.records|].tags == Some(t.cat) && r.cache == t.cache
  {
    match e.venue
    case None => acc
    case Some(v) =>
      if !(q.toTime <= Seconds(e.time) <= q.fromTime) then acc
      else if env.dist(v.lon, v.lat, q.lon, q.lat) > q.radius then acc
      else
        var en := Enrich(e, |acc.records|, q, env, acc.cache);
        Output(acc.records + [en.record], en.cache)
  }

  /** The loop over the provider's events, in their order, from cache `c0`. */
  function Aggregate(events: seq<Event>, q: Query, env: Env, c0: Cache): (r: Output)
    ensures |r.records| <= |events|
    decreases |events|
  {
    if events == [] then Output([], c0)
    else Step(Aggregate(events[..|events| - 1], q, env, c0), events[|events| - 1], q, env)
  }

  /** The positions of the events that pass the screen, in increasing order. */
  function KeptPositions(events: seq<Event>, q: Query, env: Env): (r: seq<nat>)
    ensures forall k :: 0 <= k < |r| ==> r[k] < |events| && Kept(events[r[k]], q, env)
    ensures forall k, l :: 0 <= k < l < |r| ==> r[k] < r[l]
    decreases |events|
  {
    if events == [] then []
    else
      var init := KeptPositions(events[..|events| - 1], q, env);
      if Kept(events[|events| - 1], q, env) then init + [|events| - 1] else init
  }

  /** The events that carry a venue, in order. */
  function WithVenue(events: seq<Event>): (r: seq<Event>)
    ensures |r| <= |events|
    ensures forall k :: 0 <= k < |r| ==> r[k].venue.Some?
    decreases |events|
  {
    if events == [] then []
    else
      var init := WithVenue(events[..|events| - 1]);
      if events[|events| - 1].venue.Some? then init + [events[|events| - 1]] else init
  }

  /** The loop as the request handler runs it, with its skips written as nested conditionals. */
  method MeetupsData(events: seq<Event>, q: Query, env: Env, c0: Cache) returns (records: seq<Record>, cache: Cache)
    ensures Output(records, cache) == Aggregate(events, q, env, c0)
  {
    records := [];
    cache := c0;
    var i := 0;
    while i < |events|
      invariant 0 <= i <= |events|
      invariant Output(records, cache) == Aggregate(events[..i], q, env, c0)
    {
      var e := events[i];
      if e.venue.Some? {
        var v := e.venue.value;
        if q.toTime <= Seconds(e.time) <= q.fromTime {
          if env.dist(v.lon, v.lat, q.lon, q.lat) <= q.radius {
            var en := Enrich(e, |records|, q, env, cache);
            records := records + [en.record];
            cache := en.cache;
          }
        }
      }
      assert events[..i + 1][..i] == events[..i];
      i := i + 1;
    }
    assert events[..|events|] == events;
  }
}

=== FILE: meetups_proofs.dfy ===
/**
  Properties of the whole `meetups_data` loop: what the response list holds
  and what the loop does to the tag cache.
*/
module MeetupsProofs {
  import opened Optional
  import opened TagCache
  import opened Meetups

  /** Every store entry of `a` is in `b` with the same category. */
  ghost predicate Extends(a: map<Key, Cat>, b: map<Key, Cat>) {
    forall k :: k in a ==> k in b && b[k] == a[k]
  }

  /** The `index` fields count up from 0 in list order. */
  ghost predicate IndexedFromZero(records: seq<Record>) {
    forall k :: 0 <= k < |records| ==> records[k].index == k
  }

  /** Every record starts inside the window, both bounds included. */
  ghost predicate WithinWindow(records: seq<Record>, q: Query) {
    forall k :: 0 <= k < |records| ==> q.toTime <= records[k].utc <= q.fromTime
  }

  /** Every record's venue is at most `radius` from the origin. */
  ghost predicate WithinRadius(records: seq<Record>, q: Query, env: Env) {
    forall k :: 0 <= k < |records| ==> env.dist(records[k].lng, records[k].lat, q.lon, q.lat) <= q.radius
  }

  /** The loop over a non-empty prefix is one more step after the shorter prefix. */
  lemma AggregateUnfold(events: seq<Event>, n: nat, q: Query, env: Env, c0: Cache)
    requires 0 < n <= |events|
    ensures Aggregate(events[..n], q, env, c0) == Step(Aggregate(events[..n - 1], q, env, c0), events[n - 1], q, env)
  {
    assert events[..n][..n - 1] == events[..n - 1];
  }

  /** The `index` fields are 0, 1, ..., N-1 in output order, whatever was skipped. */
  lemma {:induction false} AggregateIndices(events: seq<Event>, q: Query, env: Env, c0: Cache)
    ensures IndexedFromZero(Aggregate(events, q, env, c0).records)
    decreases |events|
  {
    if events != [] {
      var acc := Aggregate(events[..|events| - 1], q, env, c0);
      AggregateIndices(events[..|events| - 1], q, env, c0);
      var e := events[|events| - 1];
      assert Aggregate(events, q, env, c0) == Step(acc, e, q, env);
      var out := Aggregate(events, q, env, c0).records;
      forall k | 0 <= k < |out|
        ensures out[k].index == k
      {
        if !Kept(e, q, env) {
          assert out[k] == acc.records[k];
        } else if k < |acc.records| {
          assert out[k] == out[..|acc.records|][k] == acc.records[k];
        }
      }
    }
  }

  /** Every record's start time lies in the window, both bounds included. */
  lemma {:induction false} AggregateWithinWindow(events: seq<Event>, q: Query, env: Env, c0: Cache)
    ensures WithinWindow(Aggregate(events, q, env, c0).records, q)
    decreases |events|
  {
    if events != [] {
      var acc := Aggregate(events[..|events| - 1], q, env, c0);
      AggregateWithinWindow(events[..|events| - 1], q, env, c0);
      var e := events[|events| - 1];
      assert Aggregate(events, q, env, c0) == Step(acc, e, q, env);
      var out := Aggregate(events, q, env, c0).records;
      forall k | 0 <= k < |out|
        ensures q.toTime <= out[k].utc <= q.fromTime
      {
        if k < |acc.records| {
          assert out[k] == out[..|acc.records|][k];
        }
      }
    }
  }

  /** Every record's venue is at most `radius` from the origin. */
  lemma {:induction false} AggregateWithinRadius(events: seq<Event>, q: Query, env: Env, c0: Cache)
    ensures WithinRadius(Aggregate(events, q, env, c0).records, q, env)
    decreases |events|
  {
    if events != [] {
      var acc := Aggregate(events[..|events| - 1], q, env, c0);
      AggregateWithinRadius(events[..|events| - 1], q, env, c0);
      var e := events[|events| - 1];
      assert Aggregate(events, q, env, c0) == Step(acc, e, q, env);
      var out := Aggregate(events, q, env, c0).records;
      forall k | 0 <= k < |out|
        ensures env.dist(out[k].lng, out[k].lat, q.lon, q.lat) <= q.radius
      {
        if k < |acc.records| {
          assert out[k] == out[..|acc.records|][k];
        }
      }
    }
  }

  /**
    The response is the screened events, in provider order: the k-th record
    describes the event at the k-th position that passes the screen.
  */
  lemma {:induction false} AggregateFollowsKept(events: seq<Event>, q: Query, env: Env, c0: Cache)
    ensures
      var out := Aggregate(events, q, env, c0).records;
      var pos := KeptPositions(events, q, env);
      && |out| == |pos|
      && forall k :: 0 <= k < |pos| ==> Describes(out[k], events[pos[k]], q, env)
    decreases |events|
  {
    if events != [] {
      var init := events[..|events| - 1];
      var acc := Aggregate(init, q, env, c0);
      AggregateFollowsKept(init, q, env, c0);
      var out := Aggregate(events, q, env, c0).records;
      var pos := KeptPositions(events, q, env);
      var pos0 := KeptPositions(init, q, env);
      forall k | 0 <= k < |pos|
        ensures Describes(out[k], events[pos[k]], q, env)
      {
        if k < |pos0| {
          assert out[k] == out[..|acc.records|][k];
          assert pos[k] == pos0[k];
          assert events[pos[k]] == init[pos0[k]];
        }
      }
    }
  }

  /**
    For a start time at or after the epoch, the window test on truncated
    seconds admits exactly the milliseconds from `toTime * 1000` up to the
    last millisecond of second `fromTime`: both bounds are inclusive.
  */
  lemma KeptInMilliseconds(e: Event, q: Query, env: Env)
    requires e.venue.Some? && 0 <= e.time
    ensures Kept(e, q, env) <==>
      && q.toTime * 1000 <= e.time < q.fromTime * 1000 + 1000
      && env.dist(e.venue.value.lon, e.venue.value.lat, q.lon, q.lat) <= q.radius
  {
  }

  /** An event passes the screen exactly when its position is listed. */
  lemma {:induction false} KeptPositionsComplete(events: seq<Event>, q: Query, env: Env)
    ensures forall i :: 0 <= i < |events| ==> (Kept(events[i], q, env) <==> i in KeptPositions(events, q, env))
    decreases |events|
  {
    if events != [] {
      var init := events[..|events| - 1];
      KeptPositionsComplete(init, q, env);
      var pos := KeptPositions(events, q, env);
      forall i | 0 <= i < |events|
        ensures Kept(events[i], q, env) <==> i in pos
      {
        if i < |init| {
          assert events[i] == init[i];
        }
      }
    }
  }

  /**
    Events without a venue leave no trace: the response and the cache are
    those of the same events with every venueless one removed.
  */
  lemma {:induction false} AggregateIgnoresVenueless(events: seq<Event>, q: Query, env: Env, c0: Cache)
    ensures Aggregate(events, q, env, c0) == Aggregate(WithVenue(events), q, env, c0)
    decreases |events|
  {
    if events != [] {
      var init := events[..|events| - 1];
      var e := events[|events| - 1];
      AggregateIgnoresVenueless(init, q, env, c0);
      var w := WithVenue(init);
      if e.venue.Some? {
        assert WithVenue(events) == w + [e];
        assert (w + [e])[..|w|] == w;
      }
    }
  }

  /**
    Without the tag flag the cache is untouched; with it, one statistics row
    is appended per record and none for a skipped event.
  */
  lemma {:induction false} AggregateCacheTraffic(events: seq<Event>, q: Query, env: Env, c0: Cache)
    ensures
      var out := Aggregate(events, q, env, c0);
      q.tagFlag != "true" ==> out.cache == c0
    ensures
      var out := Aggregate(events, q, env, c0);
      q.tagFlag == "true" ==>
        && |out.cache.stats| == |c0.stats| + |out.records|
        && out.cache.stats[..|c0.stats|] == c0.stats
    decreases |events|
  {
    if events != [] {
      var init := events[..|events| - 1];
      var acc := Aggregate(init, q, env, c0);
      AggregateCacheTraffic(init, q, env, c0);
      var out := Aggregate(events, q, env, c0);
      if q.tagFlag == "true" && out != acc {
        assert out.cache.stats[..|acc.cache.stats|] == acc.cache.stats;
        assert out.cache.stats[..|c0.stats|] == out.cache.stats[..|acc.cache.stats|][..|c0.stats|];
      }
    }
  }

  lemma StepKeepsCacheInvariants(acc: Output, e: Event, q: Query, env: Env)
    ensures Accounted(acc.cache) ==> Accounted(Step(acc, e, q, env).cache)
    ensures Sound(acc.cache, env.services) ==> Sound(Step(acc, e, q, env).cache, env.services)
    ensures Memoised(acc.cache, env.services) && NoFailures(env) ==> Memoised(Step(acc, e, q, env).cache, env.services)
  {
    if Kept(e, q, env) && q.tagFlag == "true" {
      var date := env.formatDate(Seconds(e.time + e.utcOffset));
      SetTagsKeepsInvariants(acc.cache, e.name + "/n" + BaseDesc(e, date), env.services, env.lookupFails(|acc.cache.stats|));
    }
  }

  /**
    Over a whole request the statistics stay in step with the classifier
    calls and the store stays sound; without lookup failures no text is
    classified twice, across this request and every earlier one that shared
    the cache.
  */
  lemma {:induction false} AggregateKeepsCacheInvariants(events: seq<Event>, q: Query, env: Env, c0: Cache)
    ensures Accounted(c0) ==> Accounted(Aggregate(events, q, env, c0).cache)
    ensures Sound(c0, env.services) ==> Sound(Aggregate(events, q, env, c0).cache, env.services)
    ensures Memoised(c0, env.services) && NoFailures(env) ==> Memoised(Aggregate(events, q, env, c0).cache, env.services)
    decreases |events|
  {
    if events != [] {
      var init := events[..|events| - 1];
      AggregateKeepsCacheInvariants(init, q, env, c0);
      StepKeepsCacheInvariants(Aggregate(init, q, env, c0), events[|events| - 1], q, env);
    }
  }

  /**
    Starting from an empty tag table, a request without lookup failures never
    hands the same text to the classifier twice, writes one "tags" row per
    classifier call, and stores only the classifier's own verdicts.
  */
  lemma {:induction false} FreshCacheClassifiesEachTextOnce(events: seq<Event>, q: Query, env: Env)
    requires NoFailures(env)
    ensures Memoised(Aggregate(events, q, env, Empty).cache, env.services)
    ensures Accounted(Aggregate(events, q, env, Empty).cache)
    ensures Sound(Aggregate(events, q, env, Empty).cache, env.services)
  {
    EmptyIsValid(env.services);
    AggregateKeepsCacheInvariants(events, q, env, Empty);
  }

  lemma StepStoreGrows(acc: Output, e: Event, q: Query, env: Env)
    requires NoFailures(env)
    ensures Extends(acc.cache.store, Step(acc, e, q, env).cache.store)
  {
  }

  /**
    Each record's category is the table's entry under the digest of the text
    its event handed to the classifier.
  */
  ghost predicate TagsFromStore(records: seq<Record>, events: seq<Event>, pos: seq<nat>, store: map<Key, Cat>, env: Env) {
    && |records| == |pos|
    && forall k :: 0 <= k < |records| ==>
         && pos[k] < |events|
         && env.services.hash(TagInput(events[pos[k]], env)) in store
         && records[k].tags == Some(store[env.services.hash(TagInput(events[pos[k]], env))])
  }

  /** One kept or skipped event keeps every record's category in step with the store. */
  lemma StepTagsFromStore(acc: Output, init: seq<Event>, pos0: seq<nat>, e: Event, q: Query, env: Env)
    requires NoFailures(env) && q.tagFlag == "true"
    requires TagsFromStore(acc.records, init, pos0, acc.cache.store, env)
    ensures TagsFromStore(Step(acc, e, q, env).records, init + [e],
                          if Kept(e, q, env) then pos0 + [|init|] else pos0,
                          Step(acc, e, q, env).cache.store, env)
  {
    var out := Step(acc, e, q, env);
    var events := init + [e];
    var pos := if Kept(e, q, env) then pos0 + [|init|] else pos0;
    StepStoreGrows(acc, e, q, env);
    forall k | 0 <= k < |out.records|
      ensures && pos[k] < |events|
              && env.services.hash(TagInput(events[pos[k]], env)) in out.cache.store
              && out.records[k].tags == Some(out.cache.store[env.services.hash(TagInput(events[pos[k]], env))])
    {
      if k < |acc.records| {
        assert out.records[k] == acc.records[k] by {
          if Kept(e, q, env) {
            assert out.records[k] == out.records[..|acc.records|][k];
          }
        }
        assert events[pos[k]] == init[pos0[k]];
      } else {
        assert Kept(e, q, env) && events[pos[k]] == e;
      }
    }
  }

  /**
    With the tag flag set and no lookup failures, every record's category is
    the entry the final tag table holds under the digest of that record's
    classifier input: the response shows what the table remembers.
  */
  lemma {:induction false} AggregateTagsFromStore(events: seq<Event>, q: Query, env: Env, c0: Cache)
    requires NoFailures(env) && q.tagFlag == "true"
    ensures TagsFromStore(Aggregate(events, q, env, c0).records, events, KeptPositions(events, q, env),
                          Aggregate(events, q, env, c0).cache.store, env)
    decreases |events|
  {
    if events != [] {
      var init := events[..|events| - 1];
      var e := events[|events| - 1];
      AggregateTagsFromStore(init, q, env, c0);
      assert init + [e] == events;
      StepTagsFromStore(Aggregate(init, q, env, c0), init, KeptPositions(init, q, env), e, q, env);
    }
  }

  /**
    Without lookup failures the store only grows: an entry, once written, is
    never changed, so the store is a write-once log keyed by digest.
  */
  lemma {:induction false} AggregateStoreGrows(events: seq<Event>, n: nat, m: nat, q: Query, env: Env, c0: Cache)
    requires NoFailures(env)
    requires n <= m <= |events|
    ensures Extends(c0.store, Aggregate(events[..m], q, env, c0).cache.store)
    ensures Extends(Aggregate(events[..n], q, env, c0).cache.store, Aggregate(events[..m], q, env, c0).cache.store)
    decreases m
  {
    if m == 0 {
      assert events[..0] == [];
    } else {
      var prev := Aggregate(events[..m - 1], q, env, c0);
      AggregateUnfold(events, m, q, env, c0);
      StepStoreGrows(prev, events[m - 1], q, env);
      if n < m {
        AggregateStoreGrows(events, n, m - 1, q, env, c0);
      } else {
        AggregateStoreGrows(events, m - 1, m - 1, q, env, c0);
      }
    }
  }

  /**
    The replay gives the first run's records, and its store and classifier
    log are those of `final`: no entry written, no classifier call made.
  */
  ghost predicate ReplayAgrees(first: Output, replay: Output, final: Cache) {
    && replay.records == first.records
    && replay.cache.store == final.store
    && replay.cache.classified == final.classified
  }

  /**
    One step of the replay: if the first run's store after the step is
    contained in `final`, and the replay so far agrees with the first run,
    the step keeps them in agreement.
  */
  lemma ReplayStep(p: Output, s: Output, e: Event, q: Query, env: Env, final: Cache)
    requires NoFailures(env)
    requires ReplayAgrees(p, s, final)
    requires Extends(Step(p, e, q, env).cache.store, final.store)
    ensures ReplayAgrees(Step(p, e, q, env), Step(s, e, q, env), final)
  {
  }

  lemma {:induction false} ReplayPrefix(events: seq<Event>, n: nat, q: Query, env: Env, c0: Cache)
    requires NoFailures(env)
    requires n <= |events|
    ensures
      var final := Aggregate(events, q, env, c0).cache;
      ReplayAgrees(Aggregate(events[..n], q, env, c0), Aggregate(events[..n], q, env, final), final)
    decreases n
  {
    var final := Aggregate(events, q, env, c0).cache;
    if n == 0 {
      assert events[..0] == [];
    } else {
      ReplayPrefix(events, n - 1, q, env, c0);
      AggregateUnfold(events, n, q, env, c0);
      AggregateUnfold(events, n, q, env, final);
      assert events[..|events|] == events;
      AggregateStoreGrows(events, n, |events|, q, env, c0);
      ReplayStep(Aggregate(events[..n - 1], q, env, c0), Aggregate(events[..n - 1], q, env, final),
                 events[n - 1], q, env, final);
    }
  }

  /**
    Replaying a request against the cache it left behind, with no lookup
    failures, gives the same response, calls the classifier for nothing and
    adds nothing to the store: the cache is transparent.
  */
  lemma AggregateReplayServedFromCache(events: seq<Event>, q: Query, env: Env, c0: Cache)
    requires NoFailures(env)
    ensures ReplayAgrees(Aggregate(events, q, env, c0),
                         Aggregate(events, q, env, Aggregate(events, q, env, c0).cache),
                         Aggregate(events, q, env, c0).cache)
  {
    ReplayPrefix(events, |events|, q, env, c0);
    assert events[..|events|] == events;
  }
}

=== FILE: optional.dfy ===
/** A key a provider record may or may not carry. */
module Optional {

  datatype Option<T> = None | Some(value: T)
}

=== FILE: tag_cache.dfy ===
/**
  The tag cache in front of the topic classifier (`set_tags` in map/views.py).

  A text is keyed by its digest. When the digest is stored and the lookup
  succeeds, the stored category is returned and a "tags_db" statistic is
  written. Otherwise -- the key is absent, or the lookup or the statistic
  write raised -- the classifier is called, its category is stored under the
  digest and a "tags" statistic is written.

  The digest (SHA-1) and the classifier are opaque: they are the two
  function-valued fields of `Services`. Nothing is assumed about them beyond
  each being a fixed function of its argument; in particular the digest is
  not assumed injective. Being a fixed function, the classifier here never
  changes its verdict on a text, so a stored category cannot go stale.
*/
module TagCache {

  type Text = string
  type Key = string
  type Cat = string

  /** The two external collaborators: the hex digest and the classifier. */
  datatype Services = Services(hash: Text -> Key, classify: Text -> Cat)

  /** The `stat_type` column of a statistics row: "tags_db" for a hit, "tags" for a classifier call. */
  datatype StatKind = TagsDb | Tags

  /**
    The persistent state the operation touches.
    - store: the tag table, digest to category;
    - stats: the kinds of the statistics rows, in insertion order (the
      elapsed-time column is wall-clock and is not modelled);
    - classified: the texts handed to the classifier, in call order. This is
      not a table of the system: it records what the external service saw.
  */
  datatype Cache = Cache(store: map<Key, Cat>, stats: seq<StatKind>, classified: seq<Text>)

  const Empty: Cache := Cache(map[], [], [])

  /** The result of one `set_tags` call: the category and the state after it. */
  datatype Tagged = Tagged(cat: Cat, cache: Cache)

  /** The stored entry is used: its key is present and nothing raised. */
  predicate Hit(c: Cache, text: Text, s: Services, lookupFails: bool) {
    s.hash(text) in c.store && !lookupFails
  }

  /**
    One `set_tags(text)` call. `lookupFails` stands for any exception raised
    inside the `try` block (an unreachable store, a failed statistics write):
    it sends the call down the classifier path even when the key is stored.
  */
  function SetTags(c: Cache, text: Text, s: Services, lookupFails: bool): (r: Tagged)
    // afterwards the store holds the returned category under the text's digest
    ensures s.hash(text) in r.cache.store && r.cache.store[s.hash(text)] == r.cat
    // no other entry is added, removed or changed
    ensures forall k :: k != s.hash(text) ==> (k in r.cache.store <==> k in c.store)
    ensures forall k :: k != s.hash(text) && k in c.store ==> k in r.cache.store && r.cache.store[k] == c.store[k]
    // exactly one statistics row is appended, and earlier rows are kept
    ensures |r.cache.stats| == |c.stats| + 1 && r.cache.stats[..|c.stats|] == c.stats
    // a hit answers from the store, leaves it as it was and does not reach the classifier
    ensures Hit(c, text, s, lookupFails) ==>
      && r.cat == c.store[s.hash(text)]
      && r.cache.store == c.store
      && r.cache.classified == c.classified
      && r.cache.stats[|c.stats|] == TagsDb
    // a miss calls the classifier exactly once, on this text, and answers with its verdict
    ensures !Hit(c, text, s, lookupFails) ==>
      && r.cat == s.classify(text)
      && r.cache.classified == c.classified + [text]
      && r.cache.stats[|c.stats|] == Tags
  {
    var key := s.hash(text);
    if Hit(c, text, s, lookupFails) then
      Tagged(c.store[key], Cache(c.store, c.stats + [TagsDb], c.classified))
    else
      var cat := s.classify(text);
      Tagged(cat, Cache(c.store[key := cat], c.stats + [Tags], c.classified + [text]))
  }

  /**
    Asking again for the same text is a hit when the second lookup does not
    fail, whatever happened on the first call: the same category comes back,
    the classifier is not called and only a "tags_db" row is added.
  */
  lemma SecondCallHits(c: Cache, text: Text, s: Services, firstFails: bool)
    ensures
      var first := SetTags(c, text, s, firstFails);
      var second := SetTags(first.cache, text, s, false);
      && second.cat == first.cat
      && second.cache.store == first.cache.store
      && second.cache.classified == first.cache.classified
      && second.cache.stats == first.cache.stats + [TagsDb]
  {
  }

  /** No text reaches the classifier twice. */
  ghost predicate NoDup<T>(xs: seq<T>) {
    forall i, j :: 0 <= i < j < |xs| ==> xs[i] != xs[j]
  }

  /** Every text the classifier has seen is answered from the store. */
  ghost predicate Memoised(c: Cache, s: Services) {
    && NoDup(c.classified)
    && forall i :: 0 <= i < |c.classified| ==> s.hash(c.classified[i]) in c.store
  }

  /** Every stored category is the classifier's verdict on some text with that digest. */
  ghost predicate Sound(c: Cache, s: Services) {
    forall k :: k in c.store ==>
      exists i :: 0 <= i < |c.classified| && s.hash(c.classified[i]) == k && c.store[k] == s.classify(c.classified[i])
  }

  /** The number of "tags" rows among `stats`. */
  function CountTags(stats: seq<StatKind>): (n: nat)
    ensures n <= |stats|
    decreases |stats|
  {
    if stats == [] then 0
    else CountTags(stats[..|stats| - 1]) + (if stats[|stats| - 1] == Tags then 1 else 0)
  }

  /** Every classifier call is logged by exactly one "tags" row. */
  predicate Accounted(c: Cache) {
    CountTags(c.stats) == |c.classified|
  }

  lemma EmptyIsValid(s: Services)
    ensures Memoised(Empty, s) && Sound(Empty, s) && Accounted(Empty)
  {
  }

  /**
    `set_tags` keeps the statistics in step with the classifier calls and the
    store sound whatever fails; without a failure it also keeps the memo
    guarantee, so no text is ever classified twice.
  */
  lemma SetTagsKeepsInvariants(c: Cache, text: Text, s: Services, lookupFails: bool)
    ensures Accounted(c) ==> Accounted(SetTags(c, text, s, lookupFails).cache)
    ensures Sound(c, s) ==> Sound(SetTags(c, text, s, lookupFails).cache, s)
    ensures Memoised(c, s) && !lookupFails ==> Memoised(SetTags(c, text, s, lookupFails).cache, s)
  {
    var r := SetTags(c, text, s, lookupFails);
    var key := s.hash(text);
    assert r.cache.stats[..|c.stats|] == c.stats;
    assert CountTags(r.cache.stats) == CountTags(c.stats) + (if Hit(c, text, s, lookupFails) then 0 else 1);
    if Sound(c, s) {
      forall k | k in r.cache.store
        ensures exists i :: 0 <= i < |r.cache.classified| && s.hash(r.cache.classified[i]) == k
                            && r.cache.store[k] == s.classify(r.cache.classified[i])
      {
        if k == key && !Hit(c, text, s, lookupFails) {
          var i := |c.classified|;
          assert r.cache.classified[i] == text;
        } else {
          var i :| 0 <= i < |c.classified| && s.hash(c.classified[i]) == k && c.store[k] == s.classify(c.classified[i]);
          assert r.cache.classified[i] == c.classified[i];
        }
      }
    }
    if Memoised(c, s) && !lookupFails && !Hit(c, text, s, lookupFails) {
      // a miss without a failure means the key was absent, so the text is new
      forall i | 0 <= i < |c.classified|
        ensures c.classified[i] != text
      {
        assert s.hash(c.classified[i]) in c.store;
      }
    }
  }

  /**
    With a sound store the answer is always the classifier's verdict on a
    text with the same digest; when no other classified text shares that
    digest, it is the verdict on this very text.
  */
  lemma SetTagsAnswersFromClassifier(c: Cache, text: Text, s: Services, lookupFails: bool)
    requires Sound(c, s)
    ensures
      var r := SetTags(c, text, s, lookupFails);
      exists i :: 0 <= i < |r.cache.classified| && s.hash(r.cache.classified[i]) == s.hash(text)
                  && r.cat == s.classify(r.cache.classified[i])
    ensures
      var r := SetTags(c, text, s, lookupFails);
      (forall i :: 0 <= i < |r.cache.classified| && s.hash(r.cache.classified[i]) == s.hash(text) ==> r.cache.classified[i] == text)
      ==> r.cat == s.classify(text)
  {
    var r := SetTags(c, text, s, lookupFails);
    SetTagsKeepsInvariants(c, text, s, lookupFails);
    assert s.hash(text) in r.cache.store;
  }
}
